=== FILE: README.md ===
# Paragraph alignment style of PHPPowerPoint, in Dafny

This project models the paragraph-alignment style record of the PHPPowerPoint
presentation writer (`PhpOffice\PhpPowerpoint\Style\Alignment`). It also
proves the properties that the record's setters promise.

The record holds:
- a horizontal code, which defaults to `l`;
- a vertical code, which defaults to `base`;
- an outline level, limited to 0..8;
- an indent, a left margin and a right margin;
- a hash-index slot that the serialisation pass assigns.

The model is an immutable datatype with one pure update function per setter.
The only setter that can fail is the level setter. It returns a `Result`.

Modules:
- `Wrappers` (`wrappers.dfy`): the `Option` and `Result` types.
- `Alignments` (`alignment.dfy`): the record, its constants, the constructor
  and the setters. It also holds lemmas about combining setter calls: the last
  write wins, the spacing rule, and the ordering quirk.
- `Decimal` (`decimal.dfy`): how PHP writes an `int` when it concatenates it
  into a string. This module proves that distinct integers give distinct
  strings.
- `HashCodes` (`hash_code.dfy`): the string that the content hash digests. The
  hash depends only on the six content fields and the class name. A change to
  any single field changes the key. Without separators, however, a change to
  two fields can leave the key the same.
- `Sessions` (`session.dfy`): a sequence of setter calls, where the first
  rejected level aborts the sequence. The lemmas prove that the level stays
  in 0..8 in every reachable state. They also prove that a run aborts exactly
  when it contains an out-of-range level.

The ordering quirk: the indent and margin setters check the horizontal code
only at the moment they store a value. A later change of the horizontal code
does not clear a positive indent or margin. So a reachable style can have
indent 5 under centred alignment. `Alignments.HorizontalDoesNotRevalidate`
and `Sessions.IndentThenCenterKeepsIndent` prove this.

Two points where the code is looser than its constants and comments suggest,
and where the model follows the code:
- The constants list a fixed set of alignment codes. The setters still store
  any non-empty string unchanged, and so does the model.
- The hash is meant to tell different contents apart. The model proves that a
  change to one field changes the digested key. It proves nothing about the
  digest itself.

## Model

| member | source | states |
|---|---|---|
| `Alignments.New` | src/PhpPowerpoint/Style/Alignment.php:87-96 | A new style has horizontal `l`, vertical `base`, level, indent and both margins 0, and no hash index; its level is valid and its spacing consistent |
| `Alignments.CodeOrDefault` | src/PhpPowerpoint/Style/Alignment.php:116-118 | An empty requested code becomes the default; any other code is kept verbatim |
| `Alignments.SetHorizontal` | src/PhpPowerpoint/Style/Alignment.php:114-122 | The stored horizontal code is never empty: `l` for an empty request, the request itself otherwise; no other field changes |
| `Alignments.SetVertical` | src/PhpPowerpoint/Style/Alignment.php:140-148 | The same for the vertical code with default `base`; no other field changes |
| `Alignments.SetHorizontalLastWins` | src/PhpPowerpoint/Style/Alignment.php:114-122 | Of two horizontal setter calls, only the second one's effect remains |
| `Alignments.SetVerticalLastWins` | src/PhpPowerpoint/Style/Alignment.php:140-148 | Of two vertical setter calls, only the second one's effect remains |
| `Alignments.SetLevel` | src/PhpPowerpoint/Style/Alignment.php:167-175 | Fails with `InvalidLevel(v)` exactly when v < 0 or v > 8; otherwise only the level changes, to v, and it is valid |
| `Alignments.SetLevelKeepsValid` | src/PhpPowerpoint/Style/Alignment.php:167-175 | After a level call, whether it succeeds or fails, a valid level stays valid |
| `Alignments.AllowsSpacingCodes` | src/PhpPowerpoint/Style/Alignment.php:28-30 | The general/left/right test accepts exactly the codes `l` and `r`, because general and left share a code |
| `Alignments.Spacing` | src/PhpPowerpoint/Style/Alignment.php:195-199 | The stored amount is the request or 0 and never more than the request; a request of 0 or less is kept; a positive request is kept exactly when the alignment supports spacing; a positive result implies supported alignment |
| `Alignments.SetIndent` | src/PhpPowerpoint/Style/Alignment.php:193-204 | The indent equals the request exactly when the request is not positive or the alignment is `l`/`r`; otherwise it is 0; a positive indent implies supported alignment; only the indent changes |
| `Alignments.SetMarginLeft` | src/PhpPowerpoint/Style/Alignment.php:222-233 | The same rule for the left margin, which is the only field that changes |
| `Alignments.SetMarginRight` | src/PhpPowerpoint/Style/Alignment.php:251-262 | The same rule for the right margin, which is the only field that changes |
| `Alignments.SpacingSettersKeepConsistent` | src/PhpPowerpoint/Style/Alignment.php:193-262 | The indent, margin, vertical and level setters all keep "no positive spacing under unsupported alignment" |
| `Alignments.HorizontalDoesNotRevalidate` | src/PhpPowerpoint/Style/Alignment.php:114-122 | The horizontal setter leaves indent and margins as they were, so moving a positive indent to an unsupported alignment breaks spacing consistency |
| `Alignments.IndentOrderMatters` | src/PhpPowerpoint/Style/Alignment.php:193-204 | Indent 5 then centre keeps indent 5; centre then indent 5 gives indent 0 |
| `Alignments.SetHashIndex` | src/PhpPowerpoint/Style/Alignment.php:310-313 | The slot holds the given index and no content field changes |
| `Alignments.Clone` | src/PhpPowerpoint/Style/Alignment.php:318-328 | The copy agrees with the original on every content field and on the hash index |
| `Decimal.NatToString` | src/PhpPowerpoint/Style/Alignment.php:274-277 | A natural is written as decimal digits whose value is the natural itself, with two or more digits exactly when it is 10 or more, and with no leading zero |
| `Decimal.IntToString` | src/PhpPowerpoint/Style/Alignment.php:274-277 | An integer is written with a leading `-` exactly when it is negative; the digits that follow write its absolute value, with no leading zero, and 0 is the single digit `0` |
| `Decimal.NatToStringInjective` | src/PhpPowerpoint/Style/Alignment.php:274-277 | Distinct naturals are written differently |
| `Decimal.IntToStringInjective` | src/PhpPowerpoint/Style/Alignment.php:274-277 | Distinct integers are written differently |
| `HashCodes.HashKey` | src/PhpPowerpoint/Style/Alignment.php:271-279 | The digested key starts with the horizontal code and ends with the class name tag |
| `HashCodes.HashCode` | src/PhpPowerpoint/Style/Alignment.php:269-280 | The hash is the digest of the key, and every style with the same six content fields gets the same hash |
| `HashCodes.SetHashIndexKeepsHashCode` | src/PhpPowerpoint/Style/Alignment.php:269-280 | Setting the hash index, or cloning, leaves the hash unchanged |
| `HashCodes.HashKeyDetectsSingleChange` | src/PhpPowerpoint/Style/Alignment.php:271-279 | If two keys are equal and the styles agree on five content fields, they also agree on the sixth |
| `HashCodes.HashKeyCollision` | src/PhpPowerpoint/Style/Alignment.php:271-279 | Two reachable styles with different content (indent 1 and left margin 23, against indent 12 and left margin 3) have the same key |
| `Sessions.Apply` | src/PhpPowerpoint/Style/Alignment.php:114-328 | A setter call fails exactly when it is an out-of-range level; a successful call keeps a valid level valid; only a horizontal call changes the horizontal code |
| `Sessions.RunAbortsIffRejected` | src/PhpPowerpoint/Style/Alignment.php:167-175 | A sequence of calls aborts exactly when it contains an out-of-range level, and the error names the first one |
| `Sessions.RunKeepsLevelValid` | src/PhpPowerpoint/Style/Alignment.php:167-175 | Any sequence of calls keeps a valid level valid, including in the state that an aborted sequence leaves behind |
| `Sessions.ReachableLevelValid` | src/PhpPowerpoint/Style/Alignment.php:87-96 | Every style reachable from construction has a level in 0..8 |
| `Sessions.RunKeepsSpacingConsistent` | src/PhpPowerpoint/Style/Alignment.php:193-262 | A sequence of calls with no horizontal call keeps spacing consistent |
| `Sessions.IndentThenCenterKeepsIndent` | src/PhpPowerpoint/Style/Alignment.php:193-204 | Starting from a new style, indent 5 then centre gives a reachable inconsistent style with indent 5; centre then indent 5 gives indent 0 |

## Left out

- The md5 digest is a foreign cryptographic function. `HashCodes.HashCode` takes it as a parameter, and nothing is proved about its collisions.
- PHP loose comparison (`==`, `!=`) and type juggling. Codes are modelled as strings and amounts and levels as unbounded integers, compared strictly.
- PHP's 64-bit integer limits and float conversion of oversized values.
- The getters are modelled as reads of the datatype's fields.
- Default argument values of the setters. A call without an argument is the same as passing the default explicitly.
- Fluent `return $this` chaining and the `IComparable` interface.
- The exception message text. Failure is `InvalidLevel(value)`.
- The reflection-based deep copy. Every field is a scalar, so the copy is a value copy.
- A hash index of a type other than string, and resetting it to `null`. The slot is modelled as `Option<string>`, which starts as `None`.
- Serialisation of the style into presentation markup happens elsewhere and is not part of this model.

=== FILE: alignment.dfy ===
/** The paragraph-alignment style record of the presentation writer: two
    alignment codes, an outline level, an indent, two margins and a
    transient hash-index slot, with one pure update function per setter. */
module Alignments {
  import opened Wrappers

  /* Horizontal alignment codes; "general" and "left" share one code. */
  const HorizontalGeneral: string := "l"
  const HorizontalLeft: string := "l"
  const HorizontalRight: string := "r"
  const HorizontalCenter: string := "ctr"
  const HorizontalJustify: string := "just"
  const HorizontalDistributed: string := "dist"

  /* Vertical alignment codes. */
  const VerticalBase: string := "base"
  const VerticalAuto: string := "auto"
  const VerticalBottom: string := "b"
  const VerticalTop: string := "t"
  const VerticalCenter: string := "ctr"

  /* Bounds of the outline level. */
  const MinLevel: int := 0
  const MaxLevel: int := 8

  /** The style record. Alignment codes are stored as given: the setters do
      not check them against the constants above. `hashIndex` is `None`
      until a hash-indexing pass first assigns it. */
  datatype Alignment = Alignment(
    horizontal: string,
    vertical: string,
    level: int,
    indent: int,
    marginLeft: int,
    marginRight: int,
    hashIndex: Option<string>)

  /** The only failure: an outline level outside `MinLevel..MaxLevel`. */
  datatype Error = InvalidLevel(value: int)

  predicate ValidLevel(a: Alignment) {
    MinLevel <= a.level <= MaxLevel
  }

  /** Indent and margins may be positive only under general, left or right
      horizontal alignment. */
  predicate AllowsSpacing(horizontal: string) {
    horizontal == HorizontalGeneral || horizontal == HorizontalLeft || horizontal == HorizontalRight
  }

  /** No positive indent or margin sits on a horizontal alignment that does
      not support it. The setters establish this for the field they write;
      nothing re-checks it when the horizontal alignment changes. */
  predicate SpacingConsistent(a: Alignment) {
    (a.indent > 0 || a.marginLeft > 0 || a.marginRight > 0) ==> AllowsSpacing(a.horizontal)
  }

  /** The six fields that make up the style's content (everything except
      the hash index) agree. */
  predicate SameContent(a: Alignment, b: Alignment) {
    && a.horizontal == b.horizontal
    && a.vertical == b.vertical
    && a.level == b.level
    && a.indent == b.indent
    && a.marginLeft == b.marginLeft
    && a.marginRight == b.marginRight
  }

  /** A freshly constructed style. */
  function New(): (a: Alignment)
    ensures a.horizontal == HorizontalLeft && a.vertical == VerticalBase
    ensures a.level == 0 && a.indent == 0 && a.marginLeft == 0 && a.marginRight == 0
    ensures a.hashIndex.None?
    ensures ValidLevel(a) && SpacingConsistent(a)
  {
    Alignment(HorizontalLeft, VerticalBase, 0, 0, 0, 0, None)
  }

  /** The alignment code actually stored for a requested one: the empty
      string stands for `default`. */
  function CodeOrDefault(value: string, default: string): (r: string)
    ensures r != "" <== default != ""
    ensures value != "" ==> r == value
    ensures value == "" ==> r == default
  {
    if value == "" then default else value
  }

  function SetHorizontal(a: Alignment, value: string): (r: Alignment)
    ensures r.horizontal != ""
    ensures value != "" ==> r.horizontal == value
    ensures value == "" ==> r.horizontal == HorizontalLeft
    ensures r == a.(horizontal := r.horizontal)
  {
    a.(horizontal := CodeOrDefault(value, HorizontalLeft))
  }

  function SetVertical(a: Alignment, value: string): (r: Alignment)
    ensures r.vertical != ""
    ensures value != "" ==> r.vertical == value
    ensures value == "" ==> r.vertical == VerticalBase
    ensures r == a.(vertical := r.vertical)
  {
    a.(vertical := CodeOrDefault(value, VerticalBase))
  }

  /** Fails, with the state left as it was, exactly when `value` is outside
      `MinLevel..MaxLevel`; otherwise only the level changes. */
  function SetLevel(a: Alignment, value: int): (r: Result<Alignment, Error>)
    ensures r.Failure? <==> value < MinLevel || value > MaxLevel
    ensures r.Failure? ==> r.error == InvalidLevel(value)
    ensures r.Success? ==> r.value == a.(level := value) && ValidLevel(r.value)
  {
    if value < MinLevel || value > MaxLevel then Failure(InvalidLevel(value))
    else Success(a.(level := value))
  }

  /** The value an indent or margin setter stores for a requested `value`
      under the horizontal alignment `horizontal`: a positive request is
      dropped to 0 when the alignment does not support spacing; zero and
      negative requests are kept. */
  function Spacing(horizontal: string, value: int): (r: int)
    ensures r == value || r == 0
    ensures r <= value
    ensures value <= 0 ==> r == value
    ensures value > 0 ==> (r == value <==> AllowsSpacing(horizontal))
    ensures r > 0 ==> AllowsSpacing(horizontal)
  {
    if value > 0 && !AllowsSpacing(horizontal) then 0 else value
  }

  function SetIndent(a: Alignment, value: int): (r: Alignment)
    ensures r.indent == value <==> value <= 0 || AllowsSpacing(a.horizontal)
    ensures r.indent != value ==> r.indent == 0
    ensures r.indent > 0 ==> AllowsSpacing(r.horizontal)
    ensures r == a.(indent := r.indent)
  {
    a.(indent := Spacing(a.horizontal, value))
  }

  function SetMarginLeft(a: Alignment, value: int): (r: Alignment)
    ensures r.marginLeft == value <==> value <= 0 || AllowsSpacing(a.horizontal)
    ensures r.marginLeft != value ==> r.marginLeft == 0
    ensures r.marginLeft > 0 ==> AllowsSpacing(r.horizontal)
    ensures r == a.(marginLeft := r.marginLeft)
  {
    a.(marginLeft := Spacing(a.horizontal, value))
  }

  function SetMarginRight(a: Alignment, value: int): (r: Alignment)
    ensures r.marginRight == value <==> value <= 0 || AllowsSpacing(a.horizontal)
    ensures r.marginRight != value ==> r.marginRight == 0
    ensures r.marginRight > 0 ==> AllowsSpacing(r.horizontal)
    ensures r == a.(marginRight := r.marginRight)
  {
    a.(marginRight := Spacing(a.horizontal, value))
  }

  function SetHashIndex(a: Alignment, value: string): (r: Alignment)
    ensures r.hashIndex == Some(value)
    ensures SameContent(r, a)
  {
    a.(hashIndex := Some(value))
  }

  /** `clone`: every field is a scalar, so the copy is the value itself. */
  function Clone(a: Alignment): (r: Alignment)
    ensures SameContent(r, a) && r.hashIndex == a.hashIndex
  {
    a
  }

  // ---------------------------------------------------------------------
  // Properties relating several calls
  // ---------------------------------------------------------------------

  /** Supported spacing means exactly the codes "l" and "r". */
  lemma AllowsSpacingCodes(horizontal: string)
    ensures AllowsSpacing(horizontal) <==> horizontal == "l" || horizontal == "r"
  {
  }

  /** The last horizontal setter call wins. */
  lemma SetHorizontalLastWins(a: Alignment, first: string, second: string)
    ensures SetHorizontal(SetHorizontal(a, first), second) == SetHorizontal(a, second)
  {
  }

  lemma SetVerticalLastWins(a: Alignment, first: string, second: string)
    ensures SetVertical(SetVertical(a, first), second) == SetVertical(a, second)
  {
  }

  /** The level setter keeps a valid level valid whatever it is given. */
  lemma SetLevelKeepsValid(a: Alignment, value: int)
    requires ValidLevel(a)
    ensures ValidLevel(match SetLevel(a, value) case Success(b) => b case Failure(_) => a)
  {
  }

  /** Every setter except the horizontal one keeps `SpacingConsistent`. */
  lemma SpacingSettersKeepConsistent(a: Alignment, amount: int, code: string, level: int)
    requires SpacingConsistent(a)
    ensures SpacingConsistent(SetIndent(a, amount))
    ensures SpacingConsistent(SetMarginLeft(a, amount))
    ensures SpacingConsistent(SetMarginRight(a, amount))
    ensures SpacingConsistent(SetVertical(a, code))
    ensures SetLevel(a, level).Success? ==> SpacingConsistent(SetLevel(a, level).value)
  {
  }

  /** Changing the horizontal alignment never clears indent or margins, so
      it can break `SpacingConsistent`: this is the ordering quirk. */
  lemma HorizontalDoesNotRevalidate(a: Alignment, value: string)
    ensures SetHorizontal(a, value).indent == a.indent
    ensures SetHorizontal(a, value).marginLeft == a.marginLeft
    ensures SetHorizontal(a, value).marginRight == a.marginRight
    ensures a.indent > 0 && value != "" && !AllowsSpacing(value) ==> !SpacingConsistent(SetHorizontal(a, value))
  {
  }

  /** Indent 5 then centre keeps the indent; centre then indent 5 drops it. */
  lemma IndentOrderMatters()
    ensures SetHorizontal(SetIndent(New(), 5), HorizontalCenter).indent == 5
    ensures SetIndent(SetHorizontal(New(), HorizontalCenter), 5).indent == 0
  {
  }
}

=== FILE: decimal.dfy ===
/** Decimal rendering of integers, as PHP does when an `int` is concatenated
    to a string: optional minus sign, then the digits without leading zeros. */
module Decimal {

  predicate IsDigit(c: char) {
    '0' <= c <= '9'
  }

  /** The character of one decimal digit. */
  function DigitChar(d: nat): (c: char)
    requires d < 10
    ensures IsDigit(c)
    ensures c as int - '0' as int == d
  {
    ('0' as int + d) as char
  }

  /** The number a string of decimal digits writes, most significant first. */
  function DigitsValue(s: string): nat
    requires forall i :: 0 <= i < |s| ==> IsDigit(s[i])
  {
    if |s| == 0 then 0
    else
      assert IsDigit(s[|s| - 1]);
      10 * DigitsValue(s[..|s| - 1]) + (s[|s| - 1] as int - '0' as int)
  }

  /** Decimal digits of `n`, most significant first. */
  function NatToString(n: nat): (s: string)
    ensures |s| >= 1
    ensures forall i :: 0 <= i < |s| ==> IsDigit(s[i])
    ensures |s| >= 2 <==> n >= 10
    ensures s[0] == '0' ==> n == 0
    ensures DigitsValue(s) == n
  {
    if n < 10 then [DigitChar(n)] else NatToString(n / 10) + [DigitChar(n % 10)]
  }

  /** PHP's string conversion of an `int`: a leading `-` for negatives. */
  function IntToString(i: int): (s: string)
    ensures |s| >= 1
    ensures s[0] == '-' <==> i < 0
    ensures forall k :: 0 < k < |s| ==> IsDigit(s[k])
    ensures i < 0 ==> DigitsValue(s[1..]) == -i
    ensures i >= 0 ==> IsDigit(s[0]) && DigitsValue(s) == i
    ensures s[0] == '0' ==> i == 0
    ensures i < 0 ==> |s| >= 2 && s[1] != '0'
    ensures i >= 0 ==> (|s| >= 2 <==> i >= 10)
  {
    if i < 0 then "-" + NatToString(-i) else NatToString(i)
  }

  /** Distinct naturals render to distinct digit strings: equal strings
      write the same number. */
  lemma NatToStringInjective(m: nat, n: nat)
    requires NatToString(m) == NatToString(n)
    ensures m == n
  {
  }

  /** Distinct integers render to distinct strings, so the rendering can be
      read back unambiguously when it stands alone. */
  lemma IntToStringInjective(i: int, j: int)
    requires IntToString(i) == IntToString(j)
    ensures i == j
  {
  }
}

=== FILE: hash_code.dfy ===
/** The content hash of an alignment style: the digest of the six content
    fields and the class name, concatenated without separators. The digest
    (md5) is a parameter of the model. */
module HashCodes {
  import opened Wrappers
  import opened Decimal
  import opened Alignments

  /** Fully qualified class name appended as the type tag. */
  const ClassName: string := "PhpOffice\\PhpPowerpoint\\Style\\Alignment"

  /** The string the digest is taken of. */
  function HashKey(a: Alignment): (r: string)
    ensures |r| >= |a.horizontal| + |ClassName|
    ensures r[..|a.horizontal|] == a.horizontal
    ensures r[|r| - |ClassName|..] == ClassName
  {
    a.horizontal + (a.vertical + (IntToString(a.level) + (IntToString(a.indent)
      + (IntToString(a.marginLeft) + (IntToString(a.marginRight) + ClassName)))))
  }

  /** `getHashCode`: the digest of the key. Styles with the same content
      share it. */
  function HashCode(a: Alignment, digest: string -> string): (r: string)
    ensures forall b :: SameContent(a, b) ==> digest(HashKey(b)) == r
  {
    digest(HashKey(a))
  }

  /** Neither assigning a hash index nor cloning changes the hash. */
  lemma SetHashIndexKeepsHashCode(a: Alignment, value: string, digest: string -> string)
    ensures HashCode(SetHashIndex(a, value), digest) == HashCode(a, digest)
    ensures HashCode(Clone(a), digest) == HashCode(a, digest)
  {
  }

  lemma CancelLeft(p: string, x: string, y: string)
    requires p + x == p + y
    ensures x == y
  {
    assert x == (p + x)[|p|..];
  }

  lemma CancelRight(x: string, y: string, s: string)
    requires x + s == y + s
    ensures x == y
  {
    assert x == (x + s)[..|x|];
  }

  /** The key tells apart any two styles whose contents differ in a single
      field, so changing one field always changes the key. */
  lemma HashKeyDetectsSingleChange(a: Alignment, b: Alignment)
    requires HashKey(a) == HashKey(b)
    ensures a.vertical == b.vertical && a.level == b.level && a.indent == b.indent
            && a.marginLeft == b.marginLeft && a.marginRight == b.marginRight
            ==> a.horizontal == b.horizontal
    ensures a.horizontal == b.horizontal && a.level == b.level && a.indent == b.indent
            && a.marginLeft == b.marginLeft && a.marginRight == b.marginRight
            ==> a.vertical == b.vertical
    ensures a.horizontal == b.horizontal && a.vertical == b.vertical && a.indent == b.indent
            && a.marginLeft == b.marginLeft && a.marginRight == b.marginRight
            ==> a.level == b.level
    ensures a.horizontal == b.horizontal && a.vertical == b.vertical && a.level == b.level
            && a.marginLeft == b.marginLeft && a.marginRight == b.marginRight
            ==> a.indent == b.indent
    ensures a.horizontal == b.horizontal && a.vertical == b.vertical && a.level == b.level
            && a.indent == b.indent && a.marginRight == b.marginRight
            ==> a.marginLeft == b.marginLeft
    ensures a.horizontal == b.horizontal && a.vertical == b.vertical && a.level == b.level
            && a.indent == b.indent && a.marginLeft == b.marginLeft
            ==> a.marginRight == b.marginRight
  {
    var h, v, l, i, ml, mr := a.horizontal, a.vertical, IntToString(a.level), IntToString(a.indent),
      IntToString(a.marginLeft), IntToString(a.marginRight);
    var h', v', l', i', ml', mr' := b.horizontal, b.vertical, IntToString(b.level), IntToString(b.indent),
      IntToString(b.marginLeft), IntToString(b.marginRight);
    var c := ClassName;
    // The key's suffixes, from the vertical code on, from the level on, ...
    var sv, sl, si, sml, smr := v + (l + (i + (ml + (mr + c)))), l + (i + (ml + (mr + c))), i + (ml + (mr + c)),
      ml + (mr + c), mr + c;
    var sv', sl', si', sml', smr' := v' + (l' + (i' + (ml' + (mr' + c)))), l' + (i' + (ml' + (mr' + c))),
      i' + (ml' + (mr' + c)), ml' + (mr' + c), mr' + c;
    assert h + sv == h' + sv';
    // Walk along the key, cancelling each equal leading part; stop at the
    // first part that may differ and cancel the equal remainder behind it.
    if h == h' {
      CancelLeft(h, sv, sv');
      if v == v' {
        CancelLeft(v, sl, sl');
        if l == l' {
          IntToStringInjective(a.level, b.level);
          CancelLeft(l, si, si');
          if i == i' {
            IntToStringInjective(a.indent, b.indent);
            CancelLeft(i, sml, sml');
            if ml == ml' {
              IntToStringInjective(a.marginLeft, b.marginLeft);
              CancelLeft(ml, smr, smr');
              CancelRight(mr, mr', c);
              IntToStringInjective(a.marginRight, b.marginRight);
            } else if mr == mr' {
              CancelRight(ml, ml', smr);
              IntToStringInjective(a.marginLeft, b.marginLeft);
            }
          } else if ml == ml' && mr == mr' {
            CancelRight(i, i', sml);
            IntToStringInjective(a.indent, b.indent);
          }
        } else if i == i' && ml == ml' && mr == mr' {
          CancelRight(l, l', si);
          IntToStringInjective(a.level, b.level);
        }
      } else if l == l' && i == i' && ml == ml' && mr == mr' {
        CancelRight(v, v', sl);
      }
    } else if v == v' && l == l' && i == i' && ml == ml' && mr == mr' {
      CancelRight(h, h', sv);
    }
  }

  /** Without separators, two styles whose contents differ in two fields
      can share a key: indent 1 with left margin 23 and indent 12 with left
      margin 3 both contribute "123". */
  lemma HashKeyCollision()
    ensures !SameContent(SetMarginLeft(SetIndent(New(), 1), 23), SetMarginLeft(SetIndent(New(), 12), 3))
    ensures HashKey(SetMarginLeft(SetIndent(New(), 1), 23)) == HashKey(SetMarginLeft(SetIndent(New(), 12), 3))
  {
    var x := SetMarginLeft(SetIndent(New(), 1), 23);
    var y := SetMarginLeft(SetIndent(New(), 12), 3);
    assert x == New().(indent := 1, marginLeft := 23);
    assert y == New().(indent := 12, marginLeft := 3);
    assert IntToString(1) + IntToString(23) == IntToString(12) + IntToString(3) by {
      assert NatToString(2) == "2" && NatToString(1) == "1";
    }
    KeyRegroup(x);
    KeyRegroup(y);
  }

  /** The key with the indent and left margin grouped together. */
  lemma KeyRegroup(a: Alignment)
    ensures HashKey(a) == a.horizontal + (a.vertical + (IntToString(a.level)
      + ((IntToString(a.indent) + IntToString(a.marginLeft)) + (IntToString(a.marginRight) + ClassName))))
  {
    var i, ml, rest := IntToString(a.indent), IntToString(a.marginLeft), IntToString(a.marginRight) + ClassName;
    assert i + (ml + rest) == (i + ml) + rest;
  }
}

=== FILE: session.dfy ===
/** Sequences of setter calls on one alignment style, as a caller issues
    them. A failing call raises, which ends the sequence; the style keeps
    the state it had before that call. */
module Sessions {
  import opened Wrappers
  import opened Alignments

  /** One mutator call of the style. */
  datatype Call =
    | Horizontal(code: string)
    | Vertical(code: string)
    | Level(level: int)
    | Indent(amount: int)
    | MarginLeft(amount: int)
    | MarginRight(amount: int)
    | HashIndex(index: string)
    | Copy

  /** A call the style rejects. */
  predicate Rejected(c: Call) {
    c.Level? && (c.level < MinLevel || c.level > MaxLevel)
  }

  function Apply(a: Alignment, c: Call): (r: Result<Alignment, Error>)
    ensures r.Failure? <==> Rejected(c)
    ensures r.Success? && ValidLevel(a) ==> ValidLevel(r.value)
    ensures r.Success? ==> r.value.horizontal == a.horizontal || c.Horizontal?
  {
    match c
    case Horizontal(code) => Success(SetHorizontal(a, code))
    case Vertical(code) => Success(SetVertical(a, code))
    case Level(level) => SetLevel(a, level)
    case Indent(amount) => Success(SetIndent(a, amount))
    case MarginLeft(amount) => Success(SetMarginLeft(a, amount))
    case MarginRight(amount) => Success(SetMarginRight(a, amount))
    case HashIndex(index) => Success(SetHashIndex(a, index))
    case Copy => Success(Clone(a))
  }

  /** The outcome of a run: the final style, or the first rejected level
      together with the style as it stood when the call was refused. */
  datatype Outcome = Done(style: Alignment) | Aborted(style: Alignment, error: Error)

  function Run(a: Alignment, calls: seq<Call>): (r: Outcome)
    decreases |calls|
  {
    if |calls| == 0 then Done(a)
    else
      match Apply(a, calls[0])
      case Success(b) => Run(b, calls[1..])
      case Failure(e) => Aborted(a, e)
  }

  /** A run is aborted exactly when one of its calls is a rejected level,
      and then the error names the first such level. */
  lemma {:induction false} RunAbortsIffRejected(a: Alignment, calls: seq<Call>)
    ensures Run(a, calls).Aborted? <==> exists k :: 0 <= k < |calls| && Rejected(calls[k])
    ensures Run(a, calls).Aborted? ==>
      exists k :: 0 <= k < |calls| && Rejected(calls[k])
        && Run(a, calls).error == InvalidLevel(calls[k].level)
        && forall j :: 0 <= j < k ==> !Rejected(calls[j])
    decreases |calls|
  {
    if |calls| > 0 {
      match Apply(a, calls[0])
      case Success(b) =>
        RunAbortsIffRejected(b, calls[1..]);
        if Run(b, calls[1..]).Aborted? {
          var k :| 0 <= k < |calls[1..]| && Rejected(calls[1..][k])
            && Run(b, calls[1..]).error == InvalidLevel(calls[1..][k].level)
            && forall j :: 0 <= j < k ==> !Rejected(calls[1..][j]);
          assert Rejected(calls[k + 1]);
          assert forall j :: 0 <= j < k + 1 ==> !Rejected(calls[j]) by {
            forall j | 0 <= j < k + 1 ensures !Rejected(calls[j]) {
              if j > 0 {
                assert calls[j] == calls[1..][j - 1];
              }
            }
          }
        } else {
          forall k | 0 <= k < |calls| ensures !Rejected(calls[k]) {
            if k > 0 {
              assert calls[k] == calls[1..][k - 1];
            }
          }
        }
      case Failure(e) =>
        assert Rejected(calls[0]);
    }
  }

  /** The level stays within `MinLevel..MaxLevel` through any run, including
      the state an aborted run leaves behind. */
  lemma {:induction false} RunKeepsLevelValid(a: Alignment, calls: seq<Call>)
    requires ValidLevel(a)
    ensures ValidLevel(Run(a, calls).style)
    decreases |calls|
  {
    if |calls| > 0 {
      match Apply(a, calls[0])
      case Success(b) =>
        RunKeepsLevelValid(b, calls[1..]);
      case Failure(e) =>
    }
  }

  /** Every style reachable from construction has a valid level. */
  lemma ReachableLevelValid(calls: seq<Call>)
    ensures ValidLevel(Run(New(), calls).style)
  {
    RunKeepsLevelValid(New(), calls);
  }

  /** A run without horizontal-alignment calls keeps `SpacingConsistent`. */
  lemma {:induction false} RunKeepsSpacingConsistent(a: Alignment, calls: seq<Call>)
    requires SpacingConsistent(a)
    requires forall k :: 0 <= k < |calls| ==> !calls[k].Horizontal?
    ensures SpacingConsistent(Run(a, calls).style)
    decreases |calls|
  {
    if |calls| > 0 {
      match Apply(a, calls[0])
      case Success(b) =>
        assert SpacingConsistent(b);
        assert forall k :: 0 <= k < |calls[1..]| ==> !calls[1..][k].Horizontal?;
        RunKeepsSpacingConsistent(b, calls[1..]);
      case Failure(e) =>
    }
  }

  /** A reachable style can carry a positive indent under centred alignment:
      the horizontal setter does not re-check indent or margins. In the
      opposite order the indent is dropped. */
  lemma IndentThenCenterKeepsIndent()
    ensures Run(New(), [Indent(5), Horizontal(HorizontalCenter)])
      == Done(New().(indent := 5, horizontal := HorizontalCenter))
    ensures !SpacingConsistent(Run(New(), [Indent(5), Horizontal(HorizontalCenter)]).style)
    ensures Run(New(), [Horizontal(HorizontalCenter), Indent(5)])
      == Done(New().(horizontal := HorizontalCenter))
  {
    var indented := New().(indent := 5);
    var centred := New().(horizontal := HorizontalCenter);
    assert Run(New(), [Indent(5), Horizontal(HorizontalCenter)])
      == Run(indented, [Horizontal(HorizontalCenter)]);
    assert Run(indented, [Horizontal(HorizontalCenter)])
      == Run(indented.(horizontal := HorizontalCenter), []);
    assert Run(New(), [Horizontal(HorizontalCenter), Indent(5)]) == Run(centred, [Indent(5)]);
    assert Run(centred, [Indent(5)]) == Run(centred, []);
  }
}

=== FILE: wrappers.dfy ===
/** Wrappers used by the alignment model: `Option` for a slot that may be
    unset, `Result` for an operation that may raise. */
module Wrappers {

  /** A value that may be absent (PHP `null`). */
  datatype Option<T> = None | Some(value: T)

  /** The outcome of an operation that either yields a value or fails. */
  datatype Result<R, E> = Success(value: R) | Failure(error: E)
}
